=== FILE: README.md ===
# Hand-gesture mouse control: a Dafny model of the frame pipeline

The program drives the mouse from a webcam. A hand tracker reports 21
normalised landmarks per frame. Each frame then goes through the same steps:

- the index fingertip is mapped through a camera margin, scaled to the
  screen and smoothed into a cursor position;
- three finger "down" states drive three latches: grab (middle finger,
  holds the left button), right click (ring) and left click (pinky);
- a strict "rock and roll" gesture ends the process;
- the four tracked fingertips and their active flags go to a transparent
  overlay.

This project models the mapping helper `map_with_margin` and the per-frame
body of the capture loop as pure functions over exact reals and unbounded
integers, and proves the properties below.

Modules:

- `Mapping`: `Trunc`, which is Python's `int()` on a real, truncating
  toward zero. Also `MapWithMargin`, its inverse `Unmap`, and `Project`
  (mapping, scaling and truncation).
- `Smoothing`: one exponential-moving-average step with truncation
  (`Smooth`), and repeated steps toward a fixed sample (`Iterate`).
- `Fingers`: landmarks, the 21-landmark hand, tip and joint indices, and
  the per-frame finger classification.
- `Gestures`: the mouse events, the grab and click latches, event counting
  and the edge counts of a stream of finger states.
- `Pipeline`: the loop state, the observation of one frame, and the frame
  step. `HandFrame` is the gesture state machine of a frame with a hand.
  `Step` is the whole frame body.
- `Session`: the frame step run over a stream of observations, stopping at
  the frame that terminates.
- `Scenarios`: worked examples on concrete hands, on a 1920 x 1080 screen
  where pixels are computed and on any screen otherwise.

Events are `MoveTo(x, y)`, `Press(b)`, `Release(b)` and `Terminate`. A
click is a press of its button followed at once by its release, as the
program issues them. `Terminate` stands for `os._exit(0)`. `Held` follows
the physical state of a button through the events, so the model shows
that a pinky click during a grab leaves the left button up while the grab
latch stays set (`Scenarios.PinkyClickDuringGrab`).

## Model

| member | source | states |
|---|---|---|
| Mapping.Trunc | Hand_gesture_mouse_control.py:208-211 | Python `int()` on a real rounds toward zero: for a non-negative value the result is the largest integer not above it, for a negative value the smallest integer not below it |
| Mapping.MapWithMargin | Hand_gesture_mouse_control.py:155-158 | the result always lies in [0, 1], whatever the input; for a margin in [0, 0.5) every value at or below the margin maps to 0 and every value at or above 1 - margin maps to 1 |
| Mapping.UnmapInBand | Hand_gesture_mouse_control.py:155-158 | the inverse stretch sends [0, 1] into the band [m, 1 - m] |
| Mapping.MapThenUnmap | Hand_gesture_mouse_control.py:155-158 | inside the band the mapping is a bijection onto [0, 1]: unmapping recovers the camera coordinate |
| Mapping.UnmapThenMap | Hand_gesture_mouse_control.py:155-158 | every point of [0, 1] is reached by exactly the camera coordinate the inverse names |
| Mapping.MapCentre | Hand_gesture_mouse_control.py:155-158 | the centre of the camera field, 0.5, maps to 0.5 for every valid margin |
| Mapping.MapMonotone | Hand_gesture_mouse_control.py:155-158 | the mapping preserves order |
| Mapping.Project | Hand_gesture_mouse_control.py:206-209 | a coordinate mapped with the 10% margin, scaled and truncated lands in [0, size]; the margin strips pin to 0 and to size, which is one past the last pixel |
| Mapping.ProjectMonotone | Hand_gesture_mouse_control.py:206-209 | projection preserves order, so a landmark further right or lower is never drawn left of or above one nearer the origin |
| Smoothing.Smooth | Hand_gesture_mouse_control.py:210-211 | the smoothed pixel lies between the previous position and the new sample, stays put when they are equal, and for non-negative pixels is the largest integer not beyond the exact 30% weighted average |
| Smoothing.SmoothStallsBelow | Hand_gesture_mouse_control.py:210-211 | approaching the sample from below, a step does not move exactly when the gap is at most 3 pixels |
| Smoothing.SmoothDescends | Hand_gesture_mouse_control.py:210-211 | approaching from above, every step moves at least one pixel and never overshoots |
| Smoothing.SmoothStaysBelow | Hand_gesture_mouse_control.py:210-211 | a step from a pixel below a bound toward a sample at most that bound stays below the bound, so a cursor inside the screen never reaches the one-past-the-last pixel that the margin strips target |
| Smoothing.IterateBetween | Hand_gesture_mouse_control.py:210-213 | repeated frames at a fixed sample never leave the interval between the start and the sample |
| Smoothing.ConvergesFromAbove | Hand_gesture_mouse_control.py:210-213 | from above, the cursor reaches the sample exactly within as many frames as there are pixels between them |
| Smoothing.ConvergesFromBelow | Hand_gesture_mouse_control.py:210-213 | from below, the cursor ends up within 3 pixels of the sample, never beyond it, within as many frames as there are pixels between them |
| Fingers.Classify | Hand_gesture_mouse_control.py:217-238 | each `down` flag holds exactly when the tip is strictly below its joint. Strongly curled implies down, and strongly extended implies not down. A tip level with its joint is neither down nor strongly curled or extended, for all four fingers. The exit gesture implies middle and ring down, pinky up and the index tip above its joint |
| Fingers.RockAndRoll | Hand_gesture_mouse_control.py:241 | the exit condition: index and pinky strongly extended, middle and ring strongly curled (a definition; its thresholds are stated about the hand by `Fingers.ExitGestureThresholds`) |
| Fingers.ExitGestureThresholds | Hand_gesture_mouse_control.py:232-241 | a hand shows the exit gesture exactly when the index and pinky tips are more than 0.04 above their joints and the middle and ring tips more than 0.04 below theirs |
| Fingers.ShallowCurlIsNotStrong | Hand_gesture_mouse_control.py:227-238 | a middle finger curled by less than the 0.04 threshold counts as down but not strongly curled, so it drives the grab but cannot complete the exit gesture |
| Gestures.Grab | Hand_gesture_mouse_control.py:251-261 | the grab latch presses the left button exactly on an up-to-down change and releases it exactly on a down-to-up change; it emits nothing on a sustained state and ends equal to the finger state |
| Gestures.ClickOnce | Hand_gesture_mouse_control.py:263-283 | a click latch presses its button and releases it at once, exactly on an up-to-down change; it emits nothing otherwise and ends equal to the finger state, re-arming when the finger is up |
| Gestures.GrabCount | Hand_gesture_mouse_control.py:251-261 | counted per event, the grab latch emits one left press on a rising change, one left release on a falling change, and nothing else |
| Gestures.ClickCount | Hand_gesture_mouse_control.py:263-283 | counted per event, a click latch emits one press and one release of its own button on a rising change and nothing else |
| Gestures.EdgesAlternate | Hand_gesture_mouse_control.py:251-261 | over any stream of finger states, rising minus falling changes equals the change between the first and last state, so a finger's down-edges and up-edges alternate |
| Gestures.HeldAfterGrab | Hand_gesture_mouse_control.py:251-261 | after the grab latch's events the left button is physically down exactly when the latch changed to down, up when it changed to up, and untouched otherwise; the right button is never touched |
| Gestures.HeldAfterClick | Hand_gesture_mouse_control.py:263-283 | after a click latch's events its button is physically up if it clicked, whatever its state before, and untouched otherwise; the other button is never touched |
| Pipeline.ScreenPoint | Hand_gesture_mouse_control.py:285-291 | an unsmoothed landmark screen position lies within [0, w] x [0, h]; the right and bottom margin strips give w and h, one past the last pixel |
| Pipeline.TipPositions | Hand_gesture_mouse_control.py:285-291 | the overlay gets a tip for exactly those of landmarks 8, 12, 16 and 20 whose membership test succeeds, and no other key; each tip is at the landmark's unsmoothed screen position |
| Pipeline.ButtonEvents | Hand_gesture_mouse_control.py:251-283 | a frame's button events are presses and releases only, at most five; the order of the latches is stated by `Pipeline.ButtonOrder` |
| Pipeline.ButtonOrder | Hand_gesture_mouse_control.py:251-283 | the grab latch emits first, the right-click latch second and the left-click latch last: with all three fingers going down together the events are exactly press left, press right, release right, press left, release left, and the left button ends up although the grab latch is set |
| Pipeline.ActiveFlags | Hand_gesture_mouse_control.py:214-283 | the active flags of a frame that does not exit: exactly the four tracked fingers, the index always active and every other finger active exactly when it is down |
| Pipeline.Latch | Hand_gesture_mouse_control.py:247-283 | after a frame that does not exit, the grab and click latches equal their fingers' down states, the exit latch records whether the gesture shows, and the cursor is untouched |
| Pipeline.HandFrame | Hand_gesture_mouse_control.py:212-283 | a frame with a hand first moves the cursor. It terminates exactly when the exit gesture shows and its latch is clear, and then emits nothing else and changes no latch. Otherwise it emits the grab, right-click and click events in that order (`Pipeline.ButtonOrder`), and each latch follows its finger |
| Pipeline.Step | Hand_gesture_mouse_control.py:191-291 | without a hand nothing changes and the overlay payload is empty. With a hand the cursor lands between its previous position and the mapped index tip, and the frame exits exactly when the exit gesture shows with a clear latch |
| Pipeline.LeftButtonCount | Hand_gesture_mouse_control.py:251-283 | the left button's events in a frame: pressed when the middle finger goes down, released when it comes up, and pressed and released once more when the pinky goes down |
| Pipeline.RightButtonCount | Hand_gesture_mouse_control.py:263-272 | the right button's events in a frame: pressed and released once when the ring finger goes down, and never otherwise |
| Pipeline.HandFrameCount | Hand_gesture_mouse_control.py:240-283 | besides the cursor move, an exiting frame emits only `Terminate` and any other frame only its button events |
| Pipeline.StepExitEvents | Hand_gesture_mouse_control.py:240-246 | a frame showing the exit gesture while the exit latch is clear emits exactly two events: the move to the new smoothed cursor position, then `Terminate` |
| Pipeline.StepPresentation | Hand_gesture_mouse_control.py:214-291 | a frame with a hand that does not exit marks the index active and each other finger with its down state. Its tips are exactly the tracked ones present, at their unsmoothed positions, so the index tip sits where the cursor is heading |
| Pipeline.InitInv | Hand_gesture_mouse_control.py:175-179 | the initial state, cursor at (0, 0) and every latch clear, satisfies the reachable-state invariant on any screen with at least one pixel |
| Pipeline.StepInv | Hand_gesture_mouse_control.py:240-249 | every frame keeps the cursor on a pixel of the screen (column below w, row below h, although the raw target may be w or h) and the exit latch clear; the latch is only set while it is already set |
| Pipeline.ExitIsImmediate | Hand_gesture_mouse_control.py:240-249 | from any reachable state, the first frame showing the exit gesture terminates |
| Pipeline.HandFrameBalance | Hand_gesture_mouse_control.py:251-283 | per hand frame, left presses minus left releases equal the change of the grab latch (a pinky click adds one of each), and right presses and releases are equal in number |
| Pipeline.StepBalance | Hand_gesture_mouse_control.py:191-283 | the same balance for any frame, with or without a hand |
| Pipeline.HandFrameLeft | Hand_gesture_mouse_control.py:251-283 | per hand frame that does not exit, left presses are the rising edges of the middle finger plus those of the pinky, left releases the falling edges of the middle finger plus the rising edges of the pinky, and both latches end at their finger's state |
| Pipeline.StepLeftEdges | Hand_gesture_mouse_control.py:191-283 | the same for any frame that does not exit, counting only frames that show a hand |
| Pipeline.HandFrameRight | Hand_gesture_mouse_control.py:263-272 | per hand frame that does not exit, right presses and right releases each equal the rising edges of the ring finger, and its latch ends at the finger's state |
| Pipeline.StepRightEdges | Hand_gesture_mouse_control.py:191-272 | the same for any frame that does not exit |
| Pipeline.HandFrameHeld | Hand_gesture_mouse_control.py:251-283 | per hand frame: if the left button was physically down only while the grab latch was set, that stays so, and the right button, up before the frame, is up after it |
| Pipeline.StepHeld | Hand_gesture_mouse_control.py:191-283 | the same for any frame, with or without a hand |
| Session.ExitFrameEvents | Hand_gesture_mouse_control.py:240-246 | a frame showing the exit gesture while the exit latch is clear emits `Terminate` exactly once, as its last event |
| Session.TerminateIsLast | Hand_gesture_mouse_control.py:240-246 | a session reports termination exactly when it emitted `Terminate`; it emits it at most once, and always as its last event |
| Session.Run | Hand_gesture_mouse_control.py:183-291 | the capture loop over a stream of observations, stopping after the frame that exits (no contract of its own; see `Session.TerminateIsLast` and `Session.ExitIgnoresLaterFrames`) |
| Session.ExitIgnoresLaterFrames | Hand_gesture_mouse_control.py:240-246 | once a session has exited, appending frames changes nothing: no frame after the exiting one is processed |
| Session.ButtonBalance | Hand_gesture_mouse_control.py:251-283 | over any session, left presses minus releases equal the change of the grab latch, and right presses and releases balance |
| Session.LeftNetFollowsGrab | Hand_gesture_mouse_control.py:175-283 | from the initial state, left presses minus left releases equal 1 while the grab latch is set and 0 otherwise; this counts events, not the physical button |
| Session.HeldOnlyWhileGrabbed | Hand_gesture_mouse_control.py:175-283 | over any session that starts with the left button down only while grabbed, the left button is physically down only while the grab latch is set, and the right button, up at the start, ends up. The converse fails (`Scenarios.PinkyClickDuringGrab`) |
| Session.RunInv | Hand_gesture_mouse_control.py:183-291 | a session preserves the reachable-state invariant |
| Session.ReachableStates | Hand_gesture_mouse_control.py:175-291 | from the initial state the exit latch is never set and the cursor stays on a pixel of the screen: column in [0, w), row in [0, h) |
| Session.NoHandFramesAreInert | Hand_gesture_mouse_control.py:191-194 | frames without a hand change no state and emit nothing, so the latches hold across a lost hand |
| Session.LeftButtonFollowsEdges | Hand_gesture_mouse_control.py:251-283 | a session without the exit gesture runs to the end. Left presses are the middle finger's down-edges plus the pinky's, and left releases its up-edges plus the pinky's down-edges. Both latches end at the last state shown |
| Session.GrabEdgesAlternate | Hand_gesture_mouse_control.py:251-261 | without the exit gesture, the middle finger's down-edges minus its up-edges equal the change of the grab latch. So the grab presses and releases alternate: counting a latch set at the start as one earlier press, presses lead releases by zero or one |
| Session.RightButtonFollowsEdges | Hand_gesture_mouse_control.py:263-272 | without the exit gesture, a session presses and releases the right button once per down-edge of the ring finger, never on a sustained state, and the latch ends at the last state shown |
| Scenarios.CentreOfCameraFirstMove | Hand_gesture_mouse_control.py:204-213 | an index tip at the camera centre maps to (960, 540); the first frame from the origin moves the cursor to (288, 162) and emits nothing else |
| Scenarios.GrabHeld | Hand_gesture_mouse_control.py:251-256 | three frames with the middle finger down press the left button once, never release it, and leave the grab set |
| Scenarios.GrabReleased | Hand_gesture_mouse_control.py:251-261 | a fourth frame with the finger up releases the button exactly once |
| Scenarios.RingDownDownUpDown | Hand_gesture_mouse_control.py:263-272 | ring finger down, down, up, down gives exactly two right presses and two right releases |
| Scenarios.PinkyClickDuringGrab | Hand_gesture_mouse_control.py:251-283 | from any state holding the grab with the pinky up, a frame with the middle finger and the pinky down presses and releases the left button once, which leaves it physically up while the grab latch stays set |
| Scenarios.GrabAndPinkySameFrame | Hand_gesture_mouse_control.py:251-283 | from any state with the grab latch and the pinky latch clear, a frame with the middle finger and the pinky down emits press left for the grab and then the pinky's press and release of the left button, so the drag just begun is let go in the same frame while the grab latch is set |
| Scenarios.ExitAfterRelaxedFrame | Hand_gesture_mouse_control.py:240-246 | a relaxed frame followed by the exit gesture moves the cursor twice and then terminates, with no grab press although the middle finger is down; the third frame is never processed |
| Scenarios.ExitMoveIgnoresRounding | Hand_gesture_mouse_control.py:208-211 | the exit frame's vertical smoothing step gives 194 whether the target is 270 (exact arithmetic) or 269 (double precision) |

## Left out

- The overlay window, the Qt event loop, the worker thread and the queue
  to the overlay are not modelled. The overlay payload is a field of the
  step output.
- Camera capture, the hand tracker, frame reads that fail, and the preview
  window are not modelled. This covers the preview drawing at
  Hand_gesture_mouse_control.py:293-314.
- The ESC/q key handling at Hand_gesture_mouse_control.py:322-328 is not
  modelled: a session here ends only by the exit gesture or when the
  frames run out.
- The `landmarks` dictionary of camera pixel positions at
  Hand_gesture_mouse_control.py:200-202 is computed but never read, so it
  is not modelled.
- `index_down` at Hand_gesture_mouse_control.py:230 is never read, so it
  is not modelled. The distance helper `dist` is never called by the frame
  body and is not modelled either.
- Mouse and keyboard libraries: cursor placement and button actions become
  events. The screen size and the landmark positions are parameters.
  The reachable-state invariant places the cursor on a pixel, so
  `Pipeline.InitInv` and `Session.ReachableStates` take a screen at least
  one pixel wide and high, as any display the mouse library reports is.
- `os._exit(0)` becomes the `Terminate` event. The frames after it are
  not processed. The exit message printed at
  Hand_gesture_mouse_control.py:243 and the camera release and window
  teardown before the exit are not modelled.
- The membership test `i in lm` at Hand_gesture_mouse_control.py:288
  depends on the tracker's landmark container. It is an input set of
  indices.
- Floating point is modelled as exact reals. Near a pixel boundary the
  program's result can differ by one pixel: for a tip at y = 0.3 the
  double-precision mapping gives 0.24999999999999997, so a 1080-pixel
  target is 269 where exact arithmetic gives 270.
- Mapping.MapWithMargin: at margin 0.5 the program divides by zero and
  raises ZeroDivisionError (Hand_gesture_mouse_control.py:157). The
  precondition excludes that margin, so the error path is not modelled.
  The program only ever passes 0.10. The clamping ensures assume a margin
  in [0, 0.5); the function accepts any other margin.
- Whether the latches should reset when the hand is lost is an open
  question: the frame body has no reset when no hand is seen
  (Hand_gesture_mouse_control.py:194), so the latches hold, and so does the
  model (`Session.NoHandFramesAreInert`).

=== FILE: fingers.dfy ===
/** Landmark geometry and the per-frame finger-state classification. */
module Fingers {

  /** A normalised landmark position; image y grows downward. */
  datatype Landmark = Landmark(x: real, y: real)

  /** One detected hand: the 21 landmarks of the hand-tracking convention. */
  type Hand = s: seq<Landmark> | |s| == 21 witness seq(21, _ => Landmark(0.0, 0.0))

  /** The four fingers whose tips the program tracks. */
  datatype Finger = Index | Middle | Ring | Pinky

  /** Landmark index of a finger's tip. */
  function TipIndex(f: Finger): nat {
    match f
    case Index => 8
    case Middle => 12
    case Ring => 16
    case Pinky => 20
  }

  /** Landmark index of a finger's proximal interphalangeal joint. */
  function PipIndex(f: Finger): nat {
    match f
    case Index => 6
    case Middle => 10
    case Ring => 14
    case Pinky => 18
  }

  /** How far a tip must pass its joint downward to count as strongly curled. */
  const CurlThreshold: real := 0.04

  /** How far a tip must rise above its joint to count as strongly extended. */
  const StrongUpThreshold: real := 0.04

  function Tip(h: Hand, f: Finger): Landmark {
    h[TipIndex(f)]
  }

  function Pip(h: Hand, f: Finger): Landmark {
    h[PipIndex(f)]
  }

  /** The finger state booleans the frame body computes.  The index finger's
      plain `down` state is computed by the program but never read, so it is
      not part of this record. */
  datatype FingerStates = FingerStates(
    middleDown: bool,
    ringDown: bool,
    pinkyDown: bool,
    indexStrongUp: bool,
    pinkyStrongUp: bool,
    middleStrongDown: bool,
    ringStrongDown: bool)

  /** The plain `down` flag of a tracked finger other than the index. */
  function DownOf(c: FingerStates, f: Finger): bool
    requires f != Index
  {
    match f
    case Middle => c.middleDown
    case Ring => c.ringDown
    case Pinky => c.pinkyDown
  }

  /** The "rock and roll" exit gesture: index and pinky strongly extended,
      middle and ring strongly curled. */
  predicate RockAndRoll(c: FingerStates) {
    c.indexStrongUp && c.pinkyStrongUp && c.middleStrongDown && c.ringStrongDown
  }

  /** Classifies one hand.  `down` is the strict comparison tip-below-joint,
      so a tip level with its joint is up; the strong states need the fixed
      threshold of clearance in their direction.  Consequently strongly
      curled implies down, strongly extended implies not down, and a frame
      showing the exit gesture has middle and ring down and pinky up. */
  function Classify(h: Hand): (c: FingerStates)
    ensures c.middleDown <==> Tip(h, Middle).y > Pip(h, Middle).y
    ensures c.ringDown <==> Tip(h, Ring).y > Pip(h, Ring).y
    ensures c.pinkyDown <==> Tip(h, Pinky).y > Pip(h, Pinky).y
    ensures c.middleStrongDown ==> c.middleDown
    ensures c.ringStrongDown ==> c.ringDown
    ensures c.pinkyStrongUp ==> !c.pinkyDown
    ensures Tip(h, Middle).y == Pip(h, Middle).y ==> !c.middleDown && !c.middleStrongDown
    ensures Tip(h, Ring).y == Pip(h, Ring).y ==> !c.ringDown && !c.ringStrongDown
    ensures Tip(h, Pinky).y == Pip(h, Pinky).y ==> !c.pinkyDown && !c.pinkyStrongUp
    ensures Tip(h, Index).y == Pip(h, Index).y ==> !c.indexStrongUp
    ensures RockAndRoll(c) ==> c.middleDown && c.ringDown && !c.pinkyDown
    ensures RockAndRoll(c) ==> Tip(h, Index).y < Pip(h, Index).y
  {
    FingerStates(
      middleDown := h[12].y > h[10].y,
      ringDown := h[16].y > h[14].y,
      pinkyDown := h[20].y > h[18].y,
      indexStrongUp := h[8].y < h[6].y - StrongUpThreshold,
      pinkyStrongUp := h[20].y < h[18].y - StrongUpThreshold,
      middleStrongDown := h[12].y > h[10].y + CurlThreshold,
      ringStrongDown := h[16].y > h[14].y + CurlThreshold)
  }

  /** A hand shows the exit gesture exactly when the index and pinky tips
      are more than 0.04 above their joints and the middle and ring tips
      more than 0.04 below theirs. */
  lemma ExitGestureThresholds(h: Hand)
    ensures RockAndRoll(Classify(h)) <==>
      && h[8].y < h[6].y - 0.04
      && h[20].y < h[18].y - 0.04
      && h[12].y > h[10].y + 0.04
      && h[16].y > h[14].y + 0.04
  {
  }

  /** A finger can be down without being strongly curled: a curl of less
      than the threshold drives the button latches but not the exit gesture. */
  lemma ShallowCurlIsNotStrong(h: Hand)
    requires Pip(h, Middle).y < Tip(h, Middle).y <= Pip(h, Middle).y + CurlThreshold
    ensures Classify(h).middleDown && !Classify(h).middleStrongDown
    ensures !RockAndRoll(Classify(h))
  {
  }
}

=== FILE: gestures.dfy ===
/** Mouse events and the latches that turn per-frame finger states into
    debounced button actions. */
module Gestures {

  datatype Button = Left | Right

  /** The actions a frame asks of the system mouse; `Terminate` ends the
      process. */
  datatype Event =
    | MoveTo(x: int, y: int)
    | Press(button: Button)
    | Release(button: Button)
    | Terminate

  /** A latch's new value with the events its update emitted. */
  datatype Latched = Latched(latch: bool, events: seq<Event>)

  /** The grab latch on the middle finger: level-triggered holding of the
      left button.  The button is pressed exactly on an up-to-down change,
      released exactly on a down-to-up change, and a sustained state emits
      nothing; afterwards the latch equals the finger state. */
  function Grab(grabbed: bool, down: bool): (r: Latched)
    ensures r.latch == down
    ensures r.events == [Press(Left)] <==> down && !grabbed
    ensures r.events == [Release(Left)] <==> !down && grabbed
    ensures r.events == [] <==> down == grabbed
  {
    if down then
      if !grabbed then Latched(true, [Press(Left)]) else Latched(grabbed, [])
    else
      if grabbed then Latched(false, [Release(Left)]) else Latched(grabbed, [])
  }

  /** A click latch (ring finger: right button, pinky: left button): one
      click, a press of the button immediately followed by its release,
      exactly on an up-to-down change, re-armed when the finger is up again;
      afterwards the latch equals the finger state. */
  function ClickOnce(wasDown: bool, down: bool, b: Button): (r: Latched)
    ensures r.latch == down
    ensures r.events == [Press(b), Release(b)] <==> down && !wasDown
    ensures r.events == [] <==> !down || wasDown
  {
    if down then
      if !wasDown then Latched(true, [Press(b), Release(b)]) else Latched(wasDown, [])
    else
      Latched(false, [])
  }

  /** Number of occurrences of `e` in `es`. */
  function Count(es: seq<Event>, e: Event): nat {
    if |es| == 0 then 0
    else (if es[0] == e then 1 else 0) + Count(es[1..], e)
  }

  lemma {:induction false} CountAppend(a: seq<Event>, b: seq<Event>, e: Event)
    ensures Count(a + b, e) == Count(a, e) + Count(b, e)
    decreases |a|
  {
    if |a| == 0 {
      assert a + b == b;
    } else {
      assert (a + b)[1..] == a[1..] + b;
      CountAppend(a[1..], b, e);
    }
  }

  /** An event occurs in a sequence exactly when it is counted there. */
  lemma {:induction false} CountPositive(es: seq<Event>, e: Event)
    ensures Count(es, e) > 0 <==> e in es
    decreases |es|
  {
    if |es| > 0 {
      CountPositive(es[1..], e);
      assert es == [es[0]] + es[1..];
    }
  }

  /** Counting in a sequence of at most one event. */
  lemma CountOne(es: seq<Event>)
    requires |es| <= 1
    ensures forall e {:trigger Count(es, e)} :: Count(es, e) == if |es| == 1 && es[0] == e then 1 else 0
  {
    if |es| == 1 {
      assert es[1..] == [];
    }
  }

  function Ind(b: bool): int {
    if b then 1 else 0
  }

  /** Presses minus releases of a button: how many times it is held down. */
  function Net(es: seq<Event>, b: Button): int {
    Count(es, Press(b)) - Count(es, Release(b))
  }

  lemma NetAppend(a: seq<Event>, b: seq<Event>, btn: Button)
    ensures Net(a + b, btn) == Net(a, btn) + Net(b, btn)
  {
    CountAppend(a, b, Press(btn));
    CountAppend(a, b, Release(btn));
  }

  /** The grab latch's events, counted: one left press on an up-to-down
      change, one left release on a down-to-up change, nothing else. */
  lemma GrabCount(grabbed: bool, down: bool, e: Event)
    ensures Count(Grab(grabbed, down).events, e)
      == Ind(e == Press(Left) && down && !grabbed) + Ind(e == Release(Left) && !down && grabbed)
  {
    CountOne(Grab(grabbed, down).events);
  }

  /** A click latch's events, counted: one press and one release of its
      button on an up-to-down change, nothing else. */
  lemma ClickCount(wasDown: bool, down: bool, b: Button, e: Event)
    ensures Count(ClickOnce(wasDown, down, b).events, e)
      == Ind((e == Press(b) || e == Release(b)) && down && !wasDown)
  {
    if down && !wasDown {
      CountAppend([Press(b)], [Release(b)], e);
      CountOne([Press(b)]);
      CountOne([Release(b)]);
    }
  }

  /** Whether button `b` is physically down after the events `es`, starting
      from `held`: the last press or release of `b` decides. */
  function Held(b: Button, held: bool, es: seq<Event>): bool
    decreases |es|
  {
    if |es| == 0 then held
    else
      var next := if es[0] == Press(b) then true else if es[0] == Release(b) then false else held;
      Held(b, next, es[1..])
  }

  lemma {:induction false} HeldAppend(b: Button, held: bool, x: seq<Event>, y: seq<Event>)
    ensures Held(b, held, x + y) == Held(b, Held(b, held, x), y)
    decreases |x|
  {
    if |x| == 0 {
      assert x + y == y;
    } else {
      assert (x + y)[1..] == x[1..] + y;
      var next := if x[0] == Press(b) then true else if x[0] == Release(b) then false else held;
      HeldAppend(b, next, x[1..], y);
    }
  }

  /** After the grab latch's events the left button is down exactly when
      the latch changed to down, and is untouched when it did not change;
      the right button is never touched. */
  lemma HeldAfterGrab(grabbed: bool, down: bool, held: bool)
    ensures Held(Left, held, Grab(grabbed, down).events) == if down != grabbed then down else held
    ensures Held(Right, held, Grab(grabbed, down).events) == held
  {
    var es := Grab(grabbed, down).events;
    if |es| == 1 {
      assert es[1..] == [];
    }
  }

  /** A click leaves its button up, whatever its state before, and never
      touches the other button. */
  lemma HeldAfterClick(wasDown: bool, down: bool, b: Button, other: Button, held: bool)
    requires other != b
    ensures Held(b, held, ClickOnce(wasDown, down, b).events) == if down && !wasDown then false else held
    ensures Held(other, held, ClickOnce(wasDown, down, b).events) == held
  {
    var es := ClickOnce(wasDown, down, b).events;
    if down && !wasDown {
      assert es == [Press(b)] + [Release(b)];
      HeldAppend(b, held, [Press(b)], [Release(b)]);
      HeldAppend(other, held, [Press(b)], [Release(b)]);
      assert [Press(b)][1..] == [] && [Release(b)][1..] == [];
    }
  }

  /** Number of up-to-down changes in a stream of finger states that starts
      after the state `prev`. */
  function RisingEdges(prev: bool, downs: seq<bool>): nat
    decreases |downs|
  {
    if |downs| == 0 then 0
    else (if downs[0] && !prev then 1 else 0) + RisingEdges(downs[0], downs[1..])
  }

  /** Number of down-to-up changes in a stream of finger states. */
  function FallingEdges(prev: bool, downs: seq<bool>): nat
    decreases |downs|
  {
    if |downs| == 0 then 0
    else (if !downs[0] && prev then 1 else 0) + FallingEdges(downs[0], downs[1..])
  }

  /** The last state of a stream, or `prev` if it is empty. */
  function Last(prev: bool, downs: seq<bool>): bool {
    if |downs| == 0 then prev else downs[|downs| - 1]
  }

  /** Rising and falling edges alternate, so their difference is the net
      change between the first and the last state. */
  lemma {:induction false} EdgesAlternate(prev: bool, downs: seq<bool>)
    ensures RisingEdges(prev, downs) - FallingEdges(prev, downs)
      == Ind(Last(prev, downs)) - Ind(prev)
    decreases |downs|
  {
    if |downs| > 0 {
      EdgesAlternate(downs[0], downs[1..]);
      assert Last(downs[0], downs[1..]) == Last(prev, downs);
    }
  }

  /** Edges of a concatenated stream: the second part starts after the last
      state of the first. */
  lemma {:induction false} EdgesAppend(prev: bool, a: seq<bool>, b: seq<bool>)
    ensures RisingEdges(prev, a + b) == RisingEdges(prev, a) + RisingEdges(Last(prev, a), b)
    ensures FallingEdges(prev, a + b) == FallingEdges(prev, a) + FallingEdges(Last(prev, a), b)
    ensures Last(prev, a + b) == Last(Last(prev, a), b)
    decreases |a|
  {
    if |a| == 0 {
      assert a + b == b;
    } else {
      assert (a + b)[1..] == a[1..] + b;
      EdgesAppend(a[0], a[1..], b);
      assert Last(a[0], a[1..]) == Last(prev, a);
    }
  }

  /** A one-frame stream has an edge exactly when it differs from `prev`. */
  lemma SingleEdges(prev: bool, d: bool)
    ensures RisingEdges(prev, [d]) == Ind(d && !prev)
    ensures FallingEdges(prev, [d]) == Ind(!d && prev)
    ensures Last(prev, [d]) == d
  {
    assert [d][1..] == [];
  }
}

=== FILE: mapping.dfy ===
/** Coordinate mapping: a normalised camera coordinate with an edge margin
    is remapped to [0,1] and then scaled to an integer screen pixel. */
module Mapping {

  /** The edge margin of the usable camera field on each side (CAMERA_MARGIN). */
  const CameraMargin: real := 0.1

  /** Margins for which the remapped band [m, 1-m] is non-empty. */
  predicate ValidMargin(m: real) {
    0.0 <= m < 0.5
  }

  function Min(a: real, b: real): real { if a <= b then a else b }

  function Max(a: real, b: real): real { if a >= b then a else b }

  /** Python's `int()` applied to a number: truncation toward zero. */
  function Trunc(r: real): (n: int)
    ensures r >= 0.0 ==> 0 <= n && n as real <= r < n as real + 1.0
    ensures r < 0.0 ==> n <= 0 && n as real - 1.0 < r <= n as real
  {
    if r >= 0.0 then r.Floor else -((-r).Floor)
  }

  lemma TruncMonotone(r1: real, r2: real)
    requires 0.0 <= r1 <= r2
    ensures Trunc(r1) <= Trunc(r2)
  {
  }

  /** Truncation never leaves an interval whose ends are integers. */
  lemma TruncBetween(r: real, lo: int, hi: int)
    requires lo as real <= r <= hi as real
    ensures lo <= Trunc(r) <= hi
  {
  }

  lemma MulNonneg(a: real, b: real)
    requires a >= 0.0 && b >= 0.0
    ensures a * b >= 0.0
  {
  }

  /** Facts about dividing by a positive denominator. */
  lemma DivBounds(a: real, d: real)
    requires d > 0.0
    ensures (a / d) * d == a
    ensures a <= 0.0 ==> a / d <= 0.0
    ensures a >= d ==> a / d >= 1.0
  {
    var q := a / d;
    if a <= 0.0 && q > 0.0 {
      MulNonneg(q, d);
      assert false;
    }
    if a >= d && q < 1.0 {
      MulNonneg(1.0 - q, d);
      assert false;
    }
  }

  /** `map_with_margin`: the band [m, 1-m] is stretched onto [0,1] and
      everything outside it is clamped.  The only demand the code makes is
      that the division by 1-2m is defined. */
  function MapWithMargin(v: real, m: real): (r: real)
    requires 1.0 - 2.0 * m != 0.0
    ensures 0.0 <= r <= 1.0
    ensures ValidMargin(m) && v <= m ==> r == 0.0
    ensures ValidMargin(m) && v >= 1.0 - m ==> r == 1.0
  {
    var t := (v - m) / (1.0 - 2.0 * m);
    if ValidMargin(m) then DivBounds(v - m, 1.0 - 2.0 * m); Min(Max(t, 0.0), 1.0)
    else Min(Max(t, 0.0), 1.0)
  }

  /** The inverse of the stretch: the camera coordinate inside the band that
      maps to `u`. */
  function Unmap(u: real, m: real): real {
    m + u * (1.0 - 2.0 * m)
  }

  lemma UnmapInBand(u: real, m: real)
    requires ValidMargin(m) && 0.0 <= u <= 1.0
    ensures m <= Unmap(u, m) <= 1.0 - m
  {
    MulNonneg(u, 1.0 - 2.0 * m);
    MulNonneg(1.0 - u, 1.0 - 2.0 * m);
  }

  /** Inside the band the mapping is undone by `Unmap`. */
  lemma MapThenUnmap(v: real, m: real)
    requires ValidMargin(m) && m <= v <= 1.0 - m
    ensures Unmap(MapWithMargin(v, m), m) == v
  {
    var d := 1.0 - 2.0 * m;
    var t := (v - m) / d;
    assert t * d == v - m;
    assert 0.0 <= t <= 1.0 by {
      assert 0.0 <= v - m <= d;
    }
  }

  /** Every value of [0,1] is reached, by exactly the point `Unmap` names. */
  lemma UnmapThenMap(u: real, m: real)
    requires ValidMargin(m) && 0.0 <= u <= 1.0
    ensures MapWithMargin(Unmap(u, m), m) == u
  {
    var d := 1.0 - 2.0 * m;
    assert (Unmap(u, m) - m) / d == (u * d) / d == u;
  }

  /** The centre of the camera field maps to the centre of the screen. */
  lemma MapCentre(m: real)
    requires ValidMargin(m)
    ensures MapWithMargin(0.5, m) == 0.5
  {
    var d := 1.0 - 2.0 * m;
    assert 0.5 - m == 0.5 * d;
    assert (0.5 - m) / d == 0.5;
  }

  /** The mapping preserves order. */
  lemma MapMonotone(v1: real, v2: real, m: real)
    requires ValidMargin(m) && v1 <= v2
    ensures MapWithMargin(v1, m) <= MapWithMargin(v2, m)
  {
    var d := 1.0 - 2.0 * m;
    DivBounds(v1 - m, d);
    DivBounds(v2 - m, d);
    DivBounds(v2 - v1, d);
    MulNonneg((v2 - v1) / d, d);
    assert (v2 - m) / d - (v1 - m) / d == (v2 - v1) / d;
  }

  /** A coordinate mapped with the camera margin and scaled to a screen
      dimension, then truncated to a pixel (`int(mapped * scr_w)`). */
  function Project(v: real, size: nat): (p: int)
    ensures 0 <= p <= size
    ensures v <= CameraMargin ==> p == 0
    ensures v >= 1.0 - CameraMargin ==> p == size
  {
    var t := MapWithMargin(v, CameraMargin);
    MulNonneg(t, size as real);
    MulNonneg(1.0 - t, size as real);
    Trunc(t * size as real)
  }

  /** Projection preserves order: a finger further right (or lower) is never
      drawn to the left of (or above) one closer to the origin. */
  lemma ProjectMonotone(v1: real, v2: real, size: nat)
    requires v1 <= v2
    ensures Project(v1, size) <= Project(v2, size)
  {
    MapMonotone(v1, v2, CameraMargin);
    var t1 := MapWithMargin(v1, CameraMargin);
    var t2 := MapWithMargin(v2, CameraMargin);
    MulNonneg(t2 - t1, size as real);
    TruncMonotone(t1 * size as real, t2 * size as real);
  }
}

=== FILE: pipeline.dfy ===
/** One iteration of the capture loop: a landmark observation is turned into
    a smoothed cursor move, debounced button events and the presentation
    payload for the overlay. */
module Pipeline {
  import opened Mapping
  import opened Smoothing
  import opened Fingers
  import opened Gestures

  /** What persists between frames: the last smoothed cursor position and
      the four gesture latches. */
  datatype State = State(
    prevX: int,
    prevY: int,
    middleGrabbed: bool,
    pinkyWasDown: bool,
    ringWasDown: bool,
    allFingersWereDown: bool)

  /** The state before the first frame. */
  const Init: State := State(0, 0, false, false, false, false)

  /** One frame's hand-tracking result.  `present` is the set of landmark
      indices `i` for which the program's membership test `i in lm`
      succeeds; its outcome depends on the landmark container, which is not
      part of this model, so it is an input. */
  datatype Observation =
    | NoHand
    | HandSeen(hand: Hand, present: set<int>)

  /** Overlay keys are (hand number, landmark index) pairs; only hand 0 is used. */
  type TipKey = (int, int)

  /** Everything one frame produces. */
  datatype StepOutput = StepOutput(
    state: State,
    events: seq<Event>,
    tips: map<TipKey, (int, int)>,
    active: map<TipKey, bool>)

  /** The frame asked for the process to end. */
  predicate Exits(o: StepOutput) {
    Terminate in o.events
  }

  function Key(f: Finger): TipKey {
    (0, TipIndex(f))
  }

  /** Screen position of a landmark: mapped with the camera margin, scaled
      and truncated, without smoothing. */
  function ScreenPoint(l: Landmark, w: nat, h: nat): (p: (int, int))
    ensures 0 <= p.0 <= w && 0 <= p.1 <= h
  {
    (Project(l.x, w), Project(l.y, h))
  }

  /** One pass of the fingertip loop: the tip of `f` is added at its
      unsmoothed screen position when its membership test succeeds. */
  function AddTip(m: map<TipKey, (int, int)>, hand: Hand, present: set<int>, f: Finger, w: nat, h: nat)
    : map<TipKey, (int, int)>
  {
    if TipIndex(f) in present then m[Key(f) := ScreenPoint(Tip(hand, f), w, h)] else m
  }

  /** Fingertip screen positions for the overlay: exactly the four tracked
      tips whose membership test succeeds, each at its unsmoothed screen
      position. */
  function TipPositions(hand: Hand, present: set<int>, w: nat, h: nat): (m: map<TipKey, (int, int)>)
    ensures forall f :: Key(f) in m <==> TipIndex(f) in present
    ensures m.Keys <= {Key(Index), Key(Middle), Key(Ring), Key(Pinky)}
    ensures forall f :: Key(f) in m ==> m[Key(f)] == ScreenPoint(Tip(hand, f), w, h)
  {
    var m := AddTip(map[], hand, present, Index, w, h);
    var m := AddTip(m, hand, present, Middle, w, h);
    var m := AddTip(m, hand, present, Ring, w, h);
    AddTip(m, hand, present, Pinky, w, h)
  }

  /** The button events of the grab, right-click and click latches, in
      that order (see `ButtonOrder`), for a frame classified as `c`: presses
      and releases only, at most five of them (one grab change and two
      clicks). */
  function ButtonEvents(s: State, c: FingerStates): (r: seq<Event>)
    ensures forall i :: 0 <= i < |r| ==> r[i].Press? || r[i].Release?
    ensures |r| <= 5
  {
    Grab(s.middleGrabbed, c.middleDown).events
      + ClickOnce(s.ringWasDown, c.ringDown, Right).events
      + ClickOnce(s.pinkyWasDown, c.pinkyDown, Left).events
  }

  /** The order of the three latches: when the middle, ring and pinky
      fingers all go down in one frame, the grab press comes first, then the
      right click, then the left click, whose release leaves the left button
      up although the grab latch is now set. */
  lemma ButtonOrder(s: State, c: FingerStates)
    requires !s.middleGrabbed && !s.ringWasDown && !s.pinkyWasDown
    requires c.middleDown && c.ringDown && c.pinkyDown
    ensures ButtonEvents(s, c)
      == [Press(Left), Press(Right), Release(Right), Press(Left), Release(Left)]
    ensures !Held(Left, false, ButtonEvents(s, c))
  {
    var es := [Press(Left), Press(Right), Release(Right), Press(Left), Release(Left)];
    assert ButtonEvents(s, c) == es;
    HeldAppend(Left, false, es[..4], es[4..]);
    assert es[4..][1..] == [];
  }

  /** The latches after a frame classified as `c` that does not exit. */
  function Latch(s: State, c: FingerStates): (r: State)
    ensures r.prevX == s.prevX && r.prevY == s.prevY
    ensures r.middleGrabbed == c.middleDown
    ensures r.ringWasDown == c.ringDown && r.pinkyWasDown == c.pinkyDown
    ensures r.allFingersWereDown == RockAndRoll(c)
  {
    s.(allFingersWereDown := RockAndRoll(c),
       middleGrabbed := Grab(s.middleGrabbed, c.middleDown).latch,
       ringWasDown := ClickOnce(s.ringWasDown, c.ringDown, Right).latch,
       pinkyWasDown := ClickOnce(s.pinkyWasDown, c.pinkyDown, Left).latch)
  }

  /** The active-gesture flags of a frame that does not exit: the index
      finger is always active and every other tracked finger is active
      exactly when it is down. */
  function ActiveFlags(c: FingerStates): (r: map<TipKey, bool>)
    ensures r.Keys == {Key(Index), Key(Middle), Key(Ring), Key(Pinky)}
    ensures r[Key(Index)]
    ensures forall f :: f != Index ==> r[Key(f)] == DownOf(c, f)
  {
    map[Key(Index) := true, Key(Middle) := c.middleDown,
        Key(Ring) := c.ringDown, Key(Pinky) := c.pinkyDown]
  }

  /** The gesture state machine of a frame that shows a hand, given the
      frame's finger states, the smoothed cursor position and the fingertip
      positions for the overlay.  The cursor move is emitted first; the exit
      gesture then terminates when its latch is clear, emitting nothing
      further and leaving the latches as they were; otherwise the grab,
      right-click and click latches follow the finger states, in that order,
      and the exit latch records whether the gesture is showing. */
  function HandFrame(s: State, c: FingerStates, sx: int, sy: int, tips: map<TipKey, (int, int)>)
    : (o: StepOutput)
    ensures |o.events| >= 1 && o.events[0] == MoveTo(sx, sy)
    ensures o.state.prevX == sx && o.state.prevY == sy
    ensures Exits(o) <==> RockAndRoll(c) && !s.allFingersWereDown
    ensures Exits(o) ==> o.events == [MoveTo(sx, sy), Terminate]
    ensures Exits(o) ==> o.state == s.(prevX := sx, prevY := sy)
    ensures !Exits(o) ==>
      && o.state.middleGrabbed == c.middleDown
      && o.state.ringWasDown == c.ringDown
      && o.state.pinkyWasDown == c.pinkyDown
      && o.state.allFingersWereDown == RockAndRoll(c)
    ensures !Exits(o) ==> o.events[1..] == ButtonEvents(s, c)
  {
    var moved := s.(prevX := sx, prevY := sy);
    if RockAndRoll(c) && !s.allFingersWereDown then
      StepOutput(moved, [MoveTo(sx, sy), Terminate], map[], map[Key(Index) := true])
    else
      StepOutput(Latch(moved, c), [MoveTo(sx, sy)] + ButtonEvents(s, c), tips, ActiveFlags(c))
  }

  /** The per-frame body of the capture loop.  Without a hand nothing
      changes and nothing is emitted.  With a hand the cursor moves to a
      position between the previous one and the mapped index tip, and the
      exit gesture terminates the process exactly when its latch is clear. */
  function Step(s: State, obs: Observation, w: nat, h: nat): (o: StepOutput)
    ensures obs.NoHand? ==> o == StepOutput(s, [], map[], map[])
    ensures obs.HandSeen? ==>
      && Between(o.state.prevX, s.prevX, ScreenPoint(Tip(obs.hand, Index), w, h).0)
      && Between(o.state.prevY, s.prevY, ScreenPoint(Tip(obs.hand, Index), w, h).1)
    ensures Exits(o) <==>
      obs.HandSeen? && RockAndRoll(Classify(obs.hand)) && !s.allFingersWereDown
  {
    match obs
    case NoHand => StepOutput(s, [], map[], map[])
    case HandSeen(hand, present) =>
      var cursor := ScreenPoint(Tip(hand, Index), w, h);
      HandFrame(s, Classify(hand), Smooth(s.prevX, cursor.0), Smooth(s.prevY, cursor.1),
                TipPositions(hand, present, w, h))
  }

  /** A frame's button events, counted per event, are the grab's, the ring
      click's and the pinky click's. */
  lemma ButtonParts(s: State, c: FingerStates, e: Event)
    ensures Count(ButtonEvents(s, c), e)
      == Count(Grab(s.middleGrabbed, c.middleDown).events, e)
       + Count(ClickOnce(s.ringWasDown, c.ringDown, Right).events, e)
       + Count(ClickOnce(s.pinkyWasDown, c.pinkyDown, Left).events, e)
  {
    var grab := Grab(s.middleGrabbed, c.middleDown).events;
    var ring := ClickOnce(s.ringWasDown, c.ringDown, Right).events;
    CountAppend(grab, ring, e);
    CountAppend(grab + ring, ClickOnce(s.pinkyWasDown, c.pinkyDown, Left).events, e);
  }

  /** The left button's events of a frame, counted: it is pressed when the
      middle finger goes down and released when it comes up, and the
      pinky's click presses and releases it once more when the pinky goes
      down. */
  lemma LeftButtonCount(s: State, c: FingerStates)
    ensures Count(ButtonEvents(s, c), Press(Left))
      == Ind(c.middleDown && !s.middleGrabbed) + Ind(c.pinkyDown && !s.pinkyWasDown)
    ensures Count(ButtonEvents(s, c), Release(Left))
      == Ind(!c.middleDown && s.middleGrabbed) + Ind(c.pinkyDown && !s.pinkyWasDown)
  {
    ButtonParts(s, c, Press(Left));
    ButtonParts(s, c, Release(Left));
    GrabCount(s.middleGrabbed, c.middleDown, Press(Left));
    GrabCount(s.middleGrabbed, c.middleDown, Release(Left));
    ClickCount(s.ringWasDown, c.ringDown, Right, Press(Left));
    ClickCount(s.ringWasDown, c.ringDown, Right, Release(Left));
    ClickCount(s.pinkyWasDown, c.pinkyDown, Left, Press(Left));
    ClickCount(s.pinkyWasDown, c.pinkyDown, Left, Release(Left));
  }

  /** The right button's events of a frame, counted: the ring finger's click
      presses and releases it once when the finger goes down, and nothing
      else touches it. */
  lemma RightButtonCount(s: State, c: FingerStates)
    ensures Count(ButtonEvents(s, c), Press(Right)) == Ind(c.ringDown && !s.ringWasDown)
    ensures Count(ButtonEvents(s, c), Release(Right)) == Ind(c.ringDown && !s.ringWasDown)
  {
    ButtonParts(s, c, Press(Right));
    ButtonParts(s, c, Release(Right));
    GrabCount(s.middleGrabbed, c.middleDown, Press(Right));
    GrabCount(s.middleGrabbed, c.middleDown, Release(Right));
    ClickCount(s.ringWasDown, c.ringDown, Right, Press(Right));
    ClickCount(s.ringWasDown, c.ringDown, Right, Release(Right));
    ClickCount(s.pinkyWasDown, c.pinkyDown, Left, Press(Right));
    ClickCount(s.pinkyWasDown, c.pinkyDown, Left, Release(Right));
  }

  /** The events of a hand frame other than the cursor move, counted: only
      `Terminate` when the frame exits, otherwise the button events of the
      latches. */
  lemma HandFrameCount(s: State, c: FingerStates, sx: int, sy: int, tips: map<TipKey, (int, int)>, e: Event)
    requires !e.MoveTo?
    ensures Count(HandFrame(s, c, sx, sy, tips).events, e)
      == if Exits(HandFrame(s, c, sx, sy, tips)) then Ind(e == Terminate)
         else Count(ButtonEvents(s, c), e)
  {
    var o := HandFrame(s, c, sx, sy, tips);
    var head := [o.events[0]];
    var rest := o.events[1..];
    assert o.events == head + rest;
    CountAppend(head, rest, e);
    CountOne(head);
    if Exits(o) {
      CountOne(rest);
    }
  }

  /** An exiting frame emits the cursor move and then `Terminate`, nothing
      more. */
  lemma StepExitEvents(s: State, obs: Observation, w: nat, h: nat)
    requires obs.HandSeen? && RockAndRoll(Classify(obs.hand)) && !s.allFingersWereDown
    ensures Step(s, obs, w, h).events == [Step(s, obs, w, h).events[0], Terminate]
    ensures Step(s, obs, w, h).events[0]
      == MoveTo(Step(s, obs, w, h).state.prevX, Step(s, obs, w, h).state.prevY)
  {
  }

  /** The presentation payload of a hand frame that does not exit: the index
      finger is always marked active, the other three report their `down`
      state, and each tracked tip whose membership test succeeds is placed
      at its unsmoothed screen position; the index tip is thus drawn where
      the cursor is heading. */
  lemma StepPresentation(s: State, obs: Observation, w: nat, h: nat)
    requires obs.HandSeen? && !(RockAndRoll(Classify(obs.hand)) && !s.allFingersWereDown)
    ensures Step(s, obs, w, h).active.Keys == {Key(Index), Key(Middle), Key(Ring), Key(Pinky)}
    ensures Step(s, obs, w, h).active[Key(Index)]
    ensures forall f :: f != Index ==>
      Step(s, obs, w, h).active[Key(f)] == DownOf(Classify(obs.hand), f)
    ensures forall f :: Key(f) in Step(s, obs, w, h).tips <==> TipIndex(f) in obs.present
    ensures forall f :: Key(f) in Step(s, obs, w, h).tips ==>
      Step(s, obs, w, h).tips[Key(f)] == ScreenPoint(Tip(obs.hand, f), w, h)
    ensures Key(Index) in Step(s, obs, w, h).tips ==>
      Step(s, obs, w, h).tips[Key(Index)]
        == (Project(obs.hand[8].x, w), Project(obs.hand[8].y, h))
  {
  }

  /** What every state reached from `Init` satisfies: the cursor is on a
      pixel of a `w` by `h` screen (columns 0 to w - 1, rows 0 to h - 1) and
      the exit latch is clear.  The raw target may be `w` or `h`, one past
      the last pixel, but smoothing never reaches it. */
  predicate Inv(s: State, w: nat, h: nat) {
    && 0 <= s.prevX < w
    && 0 <= s.prevY < h
    && !s.allFingersWereDown
  }

  /** The initial state satisfies the invariant on every screen that has at
      least one pixel. */
  lemma InitInv(w: nat, h: nat)
    requires w > 0 && h > 0
    ensures Inv(Init, w, h)
  {
  }

  /** Every frame preserves the invariant.  In particular the exit latch,
      which the program only ever sets while it is already set, stays clear
      forever. */
  lemma StepInv(s: State, obs: Observation, w: nat, h: nat)
    requires Inv(s, w, h)
    ensures Inv(Step(s, obs, w, h).state, w, h)
  {
    if obs.HandSeen? {
      var cursor := ScreenPoint(Tip(obs.hand, Index), w, h);
      SmoothStaysBelow(s.prevX, cursor.0, w);
      SmoothStaysBelow(s.prevY, cursor.1, h);
    }
  }

  /** Consequently, from any reachable state the exit gesture ends the
      process on the first frame that shows it; the branch that tolerates a
      repeated exit gesture is never taken. */
  lemma ExitIsImmediate(s: State, obs: Observation, w: nat, h: nat)
    requires Inv(s, w, h) && obs.HandSeen? && RockAndRoll(Classify(obs.hand))
    ensures Exits(Step(s, obs, w, h))
  {
  }

  /** The `down` state a frame shows for finger `f`: none without a hand. */
  function ObservedDown(obs: Observation, f: Finger): seq<bool>
    requires f != Index
  {
    if obs.NoHand? then [] else [DownOf(Classify(obs.hand), f)]
  }

  /** Per hand frame, the left-button balance moves by the change of the
      grab latch and the right button stays balanced, whether or not the
      frame exits. */
  lemma HandFrameBalance(s: State, c: FingerStates, sx: int, sy: int, tips: map<TipKey, (int, int)>)
    ensures Net(HandFrame(s, c, sx, sy, tips).events, Left)
      == Ind(HandFrame(s, c, sx, sy, tips).state.middleGrabbed) - Ind(s.middleGrabbed)
    ensures Net(HandFrame(s, c, sx, sy, tips).events, Right) == 0
  {
    HandFrameCount(s, c, sx, sy, tips, Press(Left));
    HandFrameCount(s, c, sx, sy, tips, Release(Left));
    HandFrameCount(s, c, sx, sy, tips, Press(Right));
    HandFrameCount(s, c, sx, sy, tips, Release(Right));
    LeftButtonCount(s, c);
    RightButtonCount(s, c);
  }

  /** Per frame, the left-button balance moves by the change of the grab
      latch and the right button stays balanced. */
  lemma StepBalance(s: State, obs: Observation, w: nat, h: nat)
    ensures Net(Step(s, obs, w, h).events, Left)
      == Ind(Step(s, obs, w, h).state.middleGrabbed) - Ind(s.middleGrabbed)
    ensures Net(Step(s, obs, w, h).events, Right) == 0
  {
    match obs
    case NoHand =>
    case HandSeen(hand, present) =>
      var cursor := ScreenPoint(Tip(hand, Index), w, h);
      HandFrameBalance(s, Classify(hand), Smooth(s.prevX, cursor.0), Smooth(s.prevY, cursor.1),
                       TipPositions(hand, present, w, h));
  }

  /** Per hand frame that does not exit, the left button is pressed once
      per rising edge of the middle finger and once per rising edge of the
      pinky, released once per falling edge of the middle finger and once
      per rising edge of the pinky, and both latches end at their finger's
      state. */
  lemma HandFrameLeft(s: State, c: FingerStates, sx: int, sy: int, tips: map<TipKey, (int, int)>)
    requires !Exits(HandFrame(s, c, sx, sy, tips))
    ensures var o := HandFrame(s, c, sx, sy, tips);
      && Count(o.events, Press(Left))
        == RisingEdges(s.middleGrabbed, [c.middleDown]) + RisingEdges(s.pinkyWasDown, [c.pinkyDown])
      && Count(o.events, Release(Left))
        == FallingEdges(s.middleGrabbed, [c.middleDown]) + RisingEdges(s.pinkyWasDown, [c.pinkyDown])
      && o.state.middleGrabbed == Last(s.middleGrabbed, [c.middleDown])
      && o.state.pinkyWasDown == Last(s.pinkyWasDown, [c.pinkyDown])
  {
    HandFrameCount(s, c, sx, sy, tips, Press(Left));
    HandFrameCount(s, c, sx, sy, tips, Release(Left));
    LeftButtonCount(s, c);
    SingleEdges(s.middleGrabbed, c.middleDown);
    SingleEdges(s.pinkyWasDown, c.pinkyDown);
  }

  /** Per frame that does not exit, the left button's presses and releases
      are the edges of the middle finger and pinky states the frame shows,
      and both latches end at them. */
  lemma StepLeftEdges(s: State, obs: Observation, w: nat, h: nat)
    requires !(obs.HandSeen? && RockAndRoll(Classify(obs.hand)) && !s.allFingersWereDown)
    ensures var o := Step(s, obs, w, h);
      && Count(o.events, Press(Left))
        == RisingEdges(s.middleGrabbed, ObservedDown(obs, Middle)) + RisingEdges(s.pinkyWasDown, ObservedDown(obs, Pinky))
      && Count(o.events, Release(Left))
        == FallingEdges(s.middleGrabbed, ObservedDown(obs, Middle)) + RisingEdges(s.pinkyWasDown, ObservedDown(obs, Pinky))
      && o.state.middleGrabbed == Last(s.middleGrabbed, ObservedDown(obs, Middle))
      && o.state.pinkyWasDown == Last(s.pinkyWasDown, ObservedDown(obs, Pinky))
  {
    match obs
    case NoHand =>
    case HandSeen(hand, present) =>
      var cursor := ScreenPoint(Tip(hand, Index), w, h);
      HandFrameLeft(s, Classify(hand), Smooth(s.prevX, cursor.0), Smooth(s.prevY, cursor.1),
                    TipPositions(hand, present, w, h));
  }

  /** Per hand frame that does not exit, the right button is pressed and
      released once per rising edge of the ring finger, and its latch ends
      at the finger's state. */
  lemma HandFrameRight(s: State, c: FingerStates, sx: int, sy: int, tips: map<TipKey, (int, int)>)
    requires !Exits(HandFrame(s, c, sx, sy, tips))
    ensures var o := HandFrame(s, c, sx, sy, tips);
      && Count(o.events, Press(Right)) == RisingEdges(s.ringWasDown, [c.ringDown])
      && Count(o.events, Release(Right)) == RisingEdges(s.ringWasDown, [c.ringDown])
      && o.state.ringWasDown == Last(s.ringWasDown, [c.ringDown])
  {
    HandFrameCount(s, c, sx, sy, tips, Press(Right));
    HandFrameCount(s, c, sx, sy, tips, Release(Right));
    RightButtonCount(s, c);
    SingleEdges(s.ringWasDown, c.ringDown);
  }

  /** Per frame that does not exit, the right button's presses and releases
      are the down-edges of the ring finger state the frame shows, and the
      latch ends at it. */
  lemma StepRightEdges(s: State, obs: Observation, w: nat, h: nat)
    requires !(obs.HandSeen? && RockAndRoll(Classify(obs.hand)) && !s.allFingersWereDown)
    ensures var o := Step(s, obs, w, h);
      && Count(o.events, Press(Right)) == RisingEdges(s.ringWasDown, ObservedDown(obs, Ring))
      && Count(o.events, Release(Right)) == RisingEdges(s.ringWasDown, ObservedDown(obs, Ring))
      && o.state.ringWasDown == Last(s.ringWasDown, ObservedDown(obs, Ring))
  {
    match obs
    case NoHand =>
    case HandSeen(hand, present) =>
      var cursor := ScreenPoint(Tip(hand, Index), w, h);
      HandFrameRight(s, Classify(hand), Smooth(s.prevX, cursor.0), Smooth(s.prevY, cursor.1),
                     TipPositions(hand, present, w, h));
  }

  /** The physical buttons across a hand frame: if the left button was down
      only while the grab latch was set, that stays so; and the right button,
      up before the frame, is up after it, since every right press is
      released at once.  The converse fails: a pinky click releases the left
      button while the grab latch stays set. */
  lemma HandFrameHeld(s: State, c: FingerStates, sx: int, sy: int, tips: map<TipKey, (int, int)>, held: bool)
    requires held ==> s.middleGrabbed
    ensures Held(Left, held, HandFrame(s, c, sx, sy, tips).events) ==> HandFrame(s, c, sx, sy, tips).state.middleGrabbed
    ensures !Held(Right, false, HandFrame(s, c, sx, sy, tips).events)
  {
    var o := HandFrame(s, c, sx, sy, tips);
    var head := [o.events[0]];
    assert head[1..] == [];
    assert o.events == head + o.events[1..];
    HeldAppend(Left, held, head, o.events[1..]);
    HeldAppend(Right, false, head, o.events[1..]);
    if Exits(o) {
      assert o.events[1..] == [Terminate] && [Terminate][1..] == [];
    } else {
      var grab := Grab(s.middleGrabbed, c.middleDown).events;
      var ring := ClickOnce(s.ringWasDown, c.ringDown, Right).events;
      var pinky := ClickOnce(s.pinkyWasDown, c.pinkyDown, Left).events;
      HeldAppend(Left, held, grab + ring, pinky);
      HeldAppend(Left, held, grab, ring);
      HeldAppend(Right, false, grab + ring, pinky);
      HeldAppend(Right, false, grab, ring);
      HeldAfterGrab(s.middleGrabbed, c.middleDown, held);
      HeldAfterGrab(s.middleGrabbed, c.middleDown, false);
      HeldAfterClick(s.ringWasDown, c.ringDown, Right, Left, Held(Left, held, grab));
      HeldAfterClick(s.ringWasDown, c.ringDown, Right, Left, false);
      HeldAfterClick(s.pinkyWasDown, c.pinkyDown, Left, Right, Held(Left, held, grab + ring));
      HeldAfterClick(s.pinkyWasDown, c.pinkyDown, Left, Right, false);
    }
  }

  /** The same for any frame: without a hand nothing changes. */
  lemma StepHeld(s: State, obs: Observation, w: nat, h: nat, held: bool)
    requires held ==> s.middleGrabbed
    ensures Held(Left, held, Step(s, obs, w, h).events) ==> Step(s, obs, w, h).state.middleGrabbed
    ensures !Held(Right, false, Step(s, obs, w, h).events)
  {
    match obs
    case NoHand =>
    case HandSeen(hand, present) =>
      var cursor := ScreenPoint(Tip(hand, Index), w, h);
      HandFrameHeld(s, Classify(hand), Smooth(s.prevX, cursor.0), Smooth(s.prevY, cursor.1),
                    TipPositions(hand, present, w, h), held);
  }
}

=== FILE: scenarios.dfy ===
/** Worked examples of the frame pipeline on concrete hands, on a
    screen of any size (1920 x 1080 where pixels are
    computed), starting from the initial state. */
module Scenarios {
  import opened Mapping
  import opened Smoothing
  import opened Fingers
  import opened Gestures
  import opened Pipeline
  import opened Session

  /** A hand with every landmark at the same point. */
  function Flat(x: real, y: real): (h: Hand)
    ensures forall i :: 0 <= i < 21 ==> h[i] == Landmark(x, y)
  {
    seq(21, _ => Landmark(x, y))
  }

  /** `h` with landmark `i` moved vertically to `y`. */
  function MoveY(h: Hand, i: nat, y: real): (r: Hand)
    requires i < 21
    ensures r[i] == Landmark(h[i].x, y)
    ensures forall j :: 0 <= j < 21 && j != i ==> r[j] == h[j]
  {
    h[i := Landmark(h[i].x, y)]
  }

  /** A relaxed hand at the centre of the camera: every tip level with its
      joint, so no finger is down. */
  const Relaxed: Hand := Flat(0.5, 0.5)

  function Seen(h: Hand): Observation {
    HandSeen(h, {})
  }

  /** The index tip at the centre of the camera maps to the centre of the
      screen, (960, 540); the first smoothed position from (0, 0) is 30% of
      the way there, (288, 162). */
  lemma CentreOfCameraFirstMove()
    ensures ScreenPoint(Tip(Relaxed, Index), 1920, 1080) == (960, 540)
    ensures Step(Init, Seen(Relaxed), 1920, 1080).events == [MoveTo(288, 162)]
    ensures Step(Init, Seen(Relaxed), 1920, 1080).state == Init.(prevX := 288, prevY := 162)
  {
    MapCentre(CameraMargin);
    assert Project(0.5, 1920) == 960;
    assert Project(0.5, 1080) == 540;
    assert Smooth(0, 960) == 288;
    assert Smooth(0, 540) == 162;
    var c := Classify(Relaxed);
    assert !c.middleDown && !c.ringDown && !c.pinkyDown && !RockAndRoll(c);
    assert ButtonEvents(Init, c) == [];
  }

  /** A relaxed hand with the middle finger tip at y = 0.6 below its joint
      at y = 0.5, or raised to y = 0.4 above it. */
  const MiddleDown: Hand := MoveY(Relaxed, 12, 0.6)
  const MiddleUp: Hand := MoveY(Relaxed, 12, 0.4)

  const Down: Observation := Seen(MiddleDown)
  const Up: Observation := Seen(MiddleUp)

  lemma MiddleFrames()
    ensures Classify(MiddleDown).middleDown && !RockAndRoll(Classify(MiddleDown))
    ensures !Classify(MiddleUp).middleDown && !RockAndRoll(Classify(MiddleUp))
    ensures DownStates([Down, Down, Down], Middle) == [true, true, true]
    ensures DownStates([Down, Down, Down, Up], Middle) == [true, true, true, false]
    ensures DownStates([Down, Down, Down], Pinky) == [false, false, false]
    ensures DownStates([Down, Down, Down, Up], Pinky) == [false, false, false, false]
    ensures NoExitGesture([Down, Down, Down]) && NoExitGesture([Down, Down, Down, Up])
  {
    assert ObservedDown(Down, Middle) == [true] && ObservedDown(Up, Middle) == [false];
    assert [Down, Down, Down][1..] == [Down, Down] && [Down, Down][1..] == [Down];
    assert [Down, Down, Down, Up][1..] == [Down, Down, Up];
    assert [Down, Down, Up][1..] == [Down, Up] && [Down, Up][1..] == [Up];
    assert DownStates([Down], Middle) == [true];
    assert DownStates([Up], Middle) == [false];
    assert DownStates([Down, Up], Middle) == [true, false];
    assert DownStates([Down, Down], Middle) == [true, true];
    assert DownStates([Down, Down, Up], Middle) == [true, true, false];
    assert ObservedDown(Down, Pinky) == [false] && ObservedDown(Up, Pinky) == [false];
    assert DownStates([Down], Pinky) == [false] && DownStates([Up], Pinky) == [false];
    assert DownStates([Down, Up], Pinky) == [false, false];
    assert DownStates([Down, Down], Pinky) == [false, false];
    assert DownStates([Down, Down, Up], Pinky) == [false, false, false];
  }

  lemma EdgeFacts()
    ensures RisingEdges(false, [true, true, true]) == 1
    ensures FallingEdges(false, [true, true, true]) == 0
    ensures Last(false, [true, true, true])
    ensures RisingEdges(false, [true, true, true, false]) == 1
    ensures FallingEdges(false, [true, true, true, false]) == 1
    ensures !Last(false, [true, true, true, false])
    ensures RisingEdges(false, [true, true, false, true]) == 2
    ensures Last(false, [true, true, false, true])
    ensures RisingEdges(false, [false, false, false]) == 0
    ensures RisingEdges(false, [false, false, false, false]) == 0
  {
    assert [false, false, false, false][1..] == [false, false, false];
    assert [false, false, false][1..] == [false, false] && [false, false][1..] == [false];
    assert [true, true, true][1..] == [true, true] && [true, true][1..] == [true];
    assert [true, true, true, false][1..] == [true, true, false];
    assert [true, true, false][1..] == [true, false] && [true, false][1..] == [false];
    assert [true, true, false, true][1..] == [true, false, true];
    assert [true, false, true][1..] == [false, true] && [false, true][1..] == [true];
    assert [true][1..] == [] && [false][1..] == [];
  }

  /** Three frames of a held middle finger press the left button once,
      and never release it. */
  lemma GrabHeld(w: nat, h: nat)
    ensures var r := Run(Init, [Down, Down, Down], w, h);
      Count(r.events, Press(Left)) == 1 && Count(r.events, Release(Left)) == 0
      && r.state.middleGrabbed
  {
    MiddleFrames();
    EdgeFacts();
    LeftButtonFollowsEdges(Init, [Down, Down, Down], w, h);
  }

  /** A fourth frame with the finger up releases the button exactly once. */
  lemma GrabReleased(w: nat, h: nat)
    ensures var r := Run(Init, [Down, Down, Down, Up], w, h);
      Count(r.events, Press(Left)) == 1 && Count(r.events, Release(Left)) == 1
      && !r.state.middleGrabbed
  {
    MiddleFrames();
    EdgeFacts();
    LeftButtonFollowsEdges(Init, [Down, Down, Down, Up], w, h);
  }

  /** A relaxed hand with the ring finger tip below (0.6) or above (0.4) its
      joint at 0.5. */
  const RingDown: Hand := MoveY(Relaxed, 16, 0.6)
  const RingUp: Hand := MoveY(Relaxed, 16, 0.4)

  const RDown: Observation := Seen(RingDown)
  const RUp: Observation := Seen(RingUp)

  lemma RingFrames()
    ensures DownStates([RDown, RDown, RUp, RDown], Ring) == [true, true, false, true]
    ensures NoExitGesture([RDown, RDown, RUp, RDown])
  {
    assert Classify(RingDown).ringDown && !RockAndRoll(Classify(RingDown));
    assert !Classify(RingUp).ringDown && !RockAndRoll(Classify(RingUp));
    assert ObservedDown(RDown, Ring) == [true] && ObservedDown(RUp, Ring) == [false];
    assert [RDown, RDown, RUp, RDown][1..] == [RDown, RUp, RDown];
    assert [RDown, RUp, RDown][1..] == [RUp, RDown] && [RUp, RDown][1..] == [RDown];
    assert DownStates([RDown], Ring) == [true];
    assert DownStates([RUp, RDown], Ring) == [false, true];
    assert DownStates([RDown, RUp, RDown], Ring) == [true, false, true];
  }

  /** Ring finger down, down, up, down: exactly two right clicks, each a
      press and a release, one per down-edge, and none for the sustained
      second frame. */
  lemma RingDownDownUpDown(w: nat, h: nat)
    ensures var r := Run(Init, [RDown, RDown, RUp, RDown], w, h);
      Count(r.events, Press(Right)) == 2 && Count(r.events, Release(Right)) == 2
      && r.state.ringWasDown
  {
    RingFrames();
    EdgeFacts();
    RightButtonFollowsEdges(Init, [RDown, RDown, RUp, RDown], w, h);
  }

  /** The middle finger and the pinky both down. */
  const BothDown: Hand := MoveY(MiddleDown, 20, 0.6)

  /** A pinky click during a grab: from any state holding the grab with the
      pinky up, a frame with the middle finger and the pinky down presses
      and releases the left button once, which leaves it physically up
      although the grab latch stays set. */
  lemma PinkyClickDuringGrab(s: State, w: nat, h: nat)
    requires s.middleGrabbed && !s.pinkyWasDown
    ensures var o := Step(s, Seen(BothDown), w, h);
      && !Exits(o)
      && o.state.middleGrabbed
      && Count(o.events, Press(Left)) == 1 && Count(o.events, Release(Left)) == 1
      && !Held(Left, true, o.events)
  {
    var c := Classify(BothDown);
    assert BothDown[20] == Landmark(0.5, 0.6) && BothDown[12] == Landmark(0.5, 0.6);
    assert c.middleDown && !c.ringDown && c.pinkyDown && !RockAndRoll(c);
    var o := Step(s, Seen(BothDown), w, h);
    assert ButtonEvents(s, c) == [Press(Left), Release(Left)];
    assert o.events == [o.events[0]] + [Press(Left)] + [Release(Left)];
    LeftButtonCount(s, c);
    StepLeftEdges(s, Seen(BothDown), w, h);
    HeldAppend(Left, true, [o.events[0]] + [Press(Left)], [Release(Left)]);
    assert [Release(Left)][1..] == [];
  }

  /** A grab and a pinky click starting in the same frame: the grab press
      comes first, so the click's release lets go of the drag the grab has
      just begun, while the grab latch is set. */
  lemma GrabAndPinkySameFrame(s: State, w: nat, h: nat)
    requires !s.middleGrabbed && !s.pinkyWasDown
    ensures var o := Step(s, Seen(BothDown), w, h);
      && !Exits(o)
      && o.state.middleGrabbed
      && o.events[1..] == [Press(Left), Press(Left), Release(Left)]
      && !Held(Left, false, o.events)
  {
    var c := Classify(BothDown);
    assert BothDown[20] == Landmark(0.5, 0.6) && BothDown[12] == Landmark(0.5, 0.6);
    assert c.middleDown && !c.ringDown && c.pinkyDown && !RockAndRoll(c);
    var o := Step(s, Seen(BothDown), w, h);
    assert ButtonEvents(s, c) == [Press(Left), Press(Left), Release(Left)];
    assert o.events == [o.events[0], Press(Left), Press(Left)] + [Release(Left)];
    HeldAppend(Left, false, [o.events[0], Press(Left), Press(Left)], [Release(Left)]);
    assert [Release(Left)][1..] == [];
  }

  /** The "rock and roll" hand: index and pinky tips 0.2 above their joints,
      middle and ring tips 0.1 below theirs. */
  const Rock: Hand := MoveY(MoveY(MoveY(MoveY(Relaxed, 8, 0.3), 20, 0.3), 12, 0.6), 16, 0.6)

  /** The exit frame's vertical move does not depend on whether the target
      is 270 (exact) or 269 (double precision). */
  lemma ExitMoveIgnoresRounding()
    ensures Smooth(162, 269) == Smooth(162, 270) == 194
  {
  }

  /** A relaxed frame followed by the exit gesture: the second frame moves
      the cursor and then terminates, with no button event even though the
      middle finger is down, and the frame after it is never processed.
      The raised index tip points at (960, 270) in exact arithmetic; in
      double precision the mapped 0.25 comes out just below, so the program
      computes a target of (960, 269), and the smoothed move to (489, 194)
      is the same either way. */
  lemma ExitAfterRelaxedFrame()
    ensures var r := Run(Init, [Seen(Relaxed), Seen(Rock), Seen(Relaxed)], 1920, 1080);
      && r.exited
      && r.events == [MoveTo(288, 162), MoveTo(489, 194), Terminate]
      && r.state.prevX == 489 && r.state.prevY == 194
  {
    CentreOfCameraFirstMove();
    var c := Classify(Rock);
    assert Rock[8] == Landmark(0.5, 0.3) && Rock[6] == Landmark(0.5, 0.5);
    assert Rock[20] == Landmark(0.5, 0.3) && Rock[18] == Landmark(0.5, 0.5);
    assert Rock[12] == Landmark(0.5, 0.6) && Rock[10] == Landmark(0.5, 0.5);
    assert Rock[16] == Landmark(0.5, 0.6) && Rock[14] == Landmark(0.5, 0.5);
    assert RockAndRoll(c);
    assert ScreenPoint(Tip(Rock, Index), 1920, 1080) == (960, 270) by {
      MapCentre(CameraMargin);
      assert Project(0.5, 1920) == 960;
      assert MapWithMargin(0.3, CameraMargin) == 0.25;
      assert Project(0.3, 1080) == 270;
    }
    assert Smooth(288, 960) == 489;
    assert Smooth(162, 270) == 194;
    var s1 := Init.(prevX := 288, prevY := 162);
    var frames := [Seen(Relaxed), Seen(Rock), Seen(Relaxed)];
    assert frames[1..] == [Seen(Rock), Seen(Relaxed)];
    assert Step(s1, Seen(Rock), 1920, 1080).events == [MoveTo(489, 194), Terminate];
  }
}

=== FILE: session.dfy ===
/** A capture session: the per-frame step applied to a stream of
    observations until the exit gesture ends the process. */
module Session {
  import opened Fingers
  import opened Gestures
  import opened Pipeline

  /** The state after the frames that ran, every event they emitted, and
      whether the process was terminated. */
  datatype RunResult = RunResult(state: State, events: seq<Event>, exited: bool)

  /** Runs the frames in order; a terminating frame is the last one processed. */
  function Run(s: State, frames: seq<Observation>, w: nat, h: nat): RunResult
    decreases |frames|
  {
    if |frames| == 0 then RunResult(s, [], false)
    else
      var o := Step(s, frames[0], w, h);
      if Exits(o) then RunResult(o.state, o.events, true)
      else
        var r := Run(o.state, frames[1..], w, h);
        RunResult(r.state, o.events + r.events, r.exited)
  }

  /** The frame that terminates emits `Terminate` once, as its last event. */
  lemma ExitFrameEvents(s: State, obs: Observation, w: nat, h: nat)
    requires obs.HandSeen? && RockAndRoll(Classify(obs.hand)) && !s.allFingersWereDown
    ensures var es := Step(s, obs, w, h).events;
      Count(es, Terminate) == 1 && |es| > 0 && es[|es| - 1] == Terminate
  {
    var o := Step(s, obs, w, h);
    StepExitEvents(s, obs, w, h);
    assert o.events == [o.events[0]] + [Terminate];
    CountAppend([o.events[0]], [Terminate], Terminate);
    CountOne([o.events[0]]);
    CountOne([Terminate]);
  }

  /** Termination is reported exactly when a `Terminate` event was emitted,
      it is emitted at most once, and it is always the last event. */
  lemma {:induction false} TerminateIsLast(s: State, frames: seq<Observation>, w: nat, h: nat)
    ensures Run(s, frames, w, h).exited <==> Terminate in Run(s, frames, w, h).events
    ensures Count(Run(s, frames, w, h).events, Terminate) <= 1
    ensures Run(s, frames, w, h).exited ==>
      var es := Run(s, frames, w, h).events;
      |es| > 0 && es[|es| - 1] == Terminate
    decreases |frames|
  {
    if |frames| > 0 {
      var o := Step(s, frames[0], w, h);
      if Exits(o) {
        ExitFrameEvents(s, frames[0], w, h);
      } else {
        var r := Run(o.state, frames[1..], w, h);
        TerminateIsLast(o.state, frames[1..], w, h);
        CountAppend(o.events, r.events, Terminate);
        CountPositive(o.events, Terminate);
        CountPositive(r.events, Terminate);
        CountPositive(o.events + r.events, Terminate);
        if r.exited {
          assert (o.events + r.events)[|o.events + r.events| - 1] == r.events[|r.events| - 1];
        }
      }
    }
  }

  /** Over any session, left presses minus left releases equal the change of
      the grab latch, and every right press is matched by a release. */
  lemma {:induction false} ButtonBalance(s: State, frames: seq<Observation>, w: nat, h: nat)
    ensures Net(Run(s, frames, w, h).events, Left)
      == Ind(Run(s, frames, w, h).state.middleGrabbed) - Ind(s.middleGrabbed)
    ensures Net(Run(s, frames, w, h).events, Right) == 0
    decreases |frames|
  {
    if |frames| > 0 {
      var o := Step(s, frames[0], w, h);
      StepBalance(s, frames[0], w, h);
      if !Exits(o) {
        var r := Run(o.state, frames[1..], w, h);
        ButtonBalance(o.state, frames[1..], w, h);
        NetAppend(o.events, r.events, Left);
        NetAppend(o.events, r.events, Right);
      }
    }
  }

  /** Started from the initial state, left presses minus left releases
      equal 1 while the grab latch is set and 0 otherwise.  This counts
      events; the physical state of the button is `Held`, see
      `HeldOnlyWhileGrabbed`. */
  lemma LeftNetFollowsGrab(frames: seq<Observation>, w: nat, h: nat)
    ensures Net(Run(Init, frames, w, h).events, Left)
      == Ind(Run(Init, frames, w, h).state.middleGrabbed)
    ensures 0 <= Net(Run(Init, frames, w, h).events, Left) <= 1
  {
    ButtonBalance(Init, frames, w, h);
  }

  /** The session preserves the invariant of reachable states. */
  lemma {:induction false} RunInv(s: State, frames: seq<Observation>, w: nat, h: nat)
    requires Inv(s, w, h)
    ensures Inv(Run(s, frames, w, h).state, w, h)
    decreases |frames|
  {
    if |frames| > 0 {
      StepInv(s, frames[0], w, h);
      RunInv(Step(s, frames[0], w, h).state, frames[1..], w, h);
    }
  }

  /** A session from the initial state never sets the exit latch and keeps
      the cursor on a pixel of the screen: the column is below `w` and the
      row below `h`, although a raw target can be `w` or `h`. */
  lemma ReachableStates(frames: seq<Observation>, w: nat, h: nat)
    requires w > 0 && h > 0
    ensures !Run(Init, frames, w, h).state.allFingersWereDown
    ensures 0 <= Run(Init, frames, w, h).state.prevX < w
    ensures 0 <= Run(Init, frames, w, h).state.prevY < h
  {
    InitInv(w, h);
    RunInv(Init, frames, w, h);
  }

  /** Frames without a hand change nothing and emit nothing. */
  lemma {:induction false} NoHandFramesAreInert(s: State, frames: seq<Observation>, w: nat, h: nat)
    requires forall i :: 0 <= i < |frames| ==> frames[i].NoHand?
    ensures Run(s, frames, w, h) == RunResult(s, [], false)
    decreases |frames|
  {
    if |frames| > 0 {
      NoHandFramesAreInert(s, frames[1..], w, h);
    }
  }

  /** No hand frame in the stream shows the exit gesture. */
  predicate NoExitGesture(frames: seq<Observation>) {
    forall i :: 0 <= i < |frames| && frames[i].HandSeen? ==> !RockAndRoll(Classify(frames[i].hand))
  }

  lemma NoExitGestureHead(s: State, frames: seq<Observation>, w: nat, h: nat)
    requires |frames| > 0 && NoExitGesture(frames)
    ensures !Exits(Step(s, frames[0], w, h))
    ensures Run(s, frames, w, h) == var o := Step(s, frames[0], w, h);
      var r := Run(o.state, frames[1..], w, h);
      RunResult(r.state, o.events + r.events, r.exited)
  {
    assert frames[0].HandSeen? ==> !RockAndRoll(Classify(frames[0].hand));
  }

  lemma NoExitGestureTail(frames: seq<Observation>)
    requires |frames| > 0 && NoExitGesture(frames)
    ensures NoExitGesture(frames[1..])
  {
    forall i | 0 <= i < |frames[1..]| && frames[1..][i].HandSeen?
      ensures !RockAndRoll(Classify(frames[1..][i].hand))
    {
      assert frames[1..][i] == frames[i + 1];
    }
  }

  /** The `down` states of finger `f` over the frames that show a hand. */
  function DownStates(frames: seq<Observation>, f: Finger): seq<bool>
    requires f != Index
    decreases |frames|
  {
    if |frames| == 0 then [] else ObservedDown(frames[0], f) + DownStates(frames[1..], f)
  }

  /** Without the exit gesture a session runs to the end.  It presses the
      left button once per down-edge of the middle finger and once per
      down-edge of the pinky, and releases it once per up-edge of the middle
      finger and once per down-edge of the pinky.  Both latches end at the
      last state their finger showed. */
  lemma {:induction false} LeftButtonFollowsEdges(s: State, frames: seq<Observation>, w: nat, h: nat)
    requires NoExitGesture(frames)
    ensures var r := Run(s, frames, w, h);
      && !r.exited
      && Count(r.events, Press(Left))
        == RisingEdges(s.middleGrabbed, DownStates(frames, Middle)) + RisingEdges(s.pinkyWasDown, DownStates(frames, Pinky))
      && Count(r.events, Release(Left))
        == FallingEdges(s.middleGrabbed, DownStates(frames, Middle)) + RisingEdges(s.pinkyWasDown, DownStates(frames, Pinky))
      && r.state.middleGrabbed == Last(s.middleGrabbed, DownStates(frames, Middle))
      && r.state.pinkyWasDown == Last(s.pinkyWasDown, DownStates(frames, Pinky))
    decreases |frames|
  {
    if |frames| > 0 {
      var o := Step(s, frames[0], w, h);
      NoExitGestureHead(s, frames, w, h);
      NoExitGestureTail(frames);
      StepLeftEdges(s, frames[0], w, h);
      LeftButtonFollowsEdges(o.state, frames[1..], w, h);
      var r := Run(o.state, frames[1..], w, h);
      CountAppend(o.events, r.events, Press(Left));
      CountAppend(o.events, r.events, Release(Left));
      EdgesAppend(s.middleGrabbed, ObservedDown(frames[0], Middle), DownStates(frames[1..], Middle));
      EdgesAppend(s.pinkyWasDown, ObservedDown(frames[0], Pinky), DownStates(frames[1..], Pinky));
    }
  }

  /** Grab presses and grab releases alternate: without the exit gesture,
      the down-edges of the middle finger outnumber its up-edges by one
      exactly when the session ends with the grab latch set and did not
      start with it, so the grab part of the left-button traffic never has
      two presses or two releases in a row. */
  lemma GrabEdgesAlternate(s: State, frames: seq<Observation>, w: nat, h: nat)
    requires NoExitGesture(frames)
    ensures var downs := DownStates(frames, Middle);
      RisingEdges(s.middleGrabbed, downs) - FallingEdges(s.middleGrabbed, downs)
        == Ind(Run(s, frames, w, h).state.middleGrabbed) - Ind(s.middleGrabbed)
    ensures var downs := DownStates(frames, Middle);
      0 <= RisingEdges(s.middleGrabbed, downs) - FallingEdges(s.middleGrabbed, downs) + Ind(s.middleGrabbed) <= 1
  {
    LeftButtonFollowsEdges(s, frames, w, h);
    EdgesAlternate(s.middleGrabbed, DownStates(frames, Middle));
  }

  /** Without the exit gesture a session presses and releases the right
      button once per down-edge of the ring finger, never on a sustained
      down state, and the latch ends at the last state the finger showed. */
  lemma {:induction false} RightButtonFollowsEdges(s: State, frames: seq<Observation>, w: nat, h: nat)
    requires NoExitGesture(frames)
    ensures var r := Run(s, frames, w, h);
      && Count(r.events, Press(Right)) == RisingEdges(s.ringWasDown, DownStates(frames, Ring))
      && Count(r.events, Release(Right)) == RisingEdges(s.ringWasDown, DownStates(frames, Ring))
      && r.state.ringWasDown == Last(s.ringWasDown, DownStates(frames, Ring))
    decreases |frames|
  {
    if |frames| > 0 {
      var o := Step(s, frames[0], w, h);
      NoExitGestureHead(s, frames, w, h);
      NoExitGestureTail(frames);
      StepRightEdges(s, frames[0], w, h);
      RightButtonFollowsEdges(o.state, frames[1..], w, h);
      var r := Run(o.state, frames[1..], w, h);
      CountAppend(o.events, r.events, Press(Right));
      CountAppend(o.events, r.events, Release(Right));
      EdgesAppend(s.ringWasDown, ObservedDown(frames[0], Ring), DownStates(frames[1..], Ring));
    }
  }

  /** The physical buttons over a session: if the left button starts down
      only while the grab latch is set, it is only ever down while the latch
      is set, and the right button, up at the start, ends up.  The converse
      for the left button does not hold (see
      `Scenarios.PinkyClickDuringGrab`). */
  lemma {:induction false} HeldOnlyWhileGrabbed(s: State, frames: seq<Observation>, w: nat, h: nat, held: bool)
    requires held ==> s.middleGrabbed
    ensures Held(Left, held, Run(s, frames, w, h).events) ==> Run(s, frames, w, h).state.middleGrabbed
    ensures !Held(Right, false, Run(s, frames, w, h).events)
    decreases |frames|
  {
    if |frames| > 0 {
      var o := Step(s, frames[0], w, h);
      StepHeld(s, frames[0], w, h, held);
      if !Exits(o) {
        var r := Run(o.state, frames[1..], w, h);
        HeldOnlyWhileGrabbed(o.state, frames[1..], w, h, Held(Left, held, o.events));
        HeldAppend(Left, held, o.events, r.events);
        HeldAppend(Right, false, o.events, r.events);
      }
    }
  }

  /** Once a session has exited, further frames are never processed. */
  lemma {:induction false} ExitIgnoresLaterFrames(s: State, frames: seq<Observation>, more: seq<Observation>, w: nat, h: nat)
    requires Run(s, frames, w, h).exited
    ensures Run(s, frames + more, w, h) == Run(s, frames, w, h)
    decreases |frames|
  {
    assert (frames + more)[0] == frames[0];
    var o := Step(s, frames[0], w, h);
    if !Exits(o) {
      assert (frames + more)[1..] == frames[1..] + more;
      ExitIgnoresLaterFrames(o.state, frames[1..], more, w, h);
    }
  }
}

=== FILE: smoothing.dfy ===
/** Cursor smoothing: an exponential moving average of the mapped cursor
    position, truncated to an integer pixel after every update. */
module Smoothing {
  import opened Mapping

  /** The weight of the new sample (SMOOTH_ALPHA = 0.30). */
  const Alpha: real := 0.3

  predicate Between(r: int, a: int, b: int) {
    (a <= r <= b) || (b <= r <= a)
  }

  /** One smoothing step `int(prev + alpha * (raw - prev))`: the result lies
      between the previous position and the new sample, a sample equal to
      the previous position is kept, and for non-negative pixels the result
      is the largest pixel not beyond the exact weighted average. */
  function Smooth(prev: int, raw: int): (r: int)
    ensures Between(r, prev, raw)
    ensures raw == prev ==> r == prev
    ensures prev >= 0 && raw >= 0 ==>
      r as real <= prev as real + Alpha * (raw - prev) as real < r as real + 1.0
  {
    var v := prev as real + Alpha * (raw - prev) as real;
    if prev <= raw then TruncBetween(v, prev, raw); Trunc(v)
    else TruncBetween(v, raw, prev); Trunc(v)
  }

  /** Approaching the sample from below, a step stands still exactly when
      the gap is at most three pixels (0.3 of the gap is then below one). */
  lemma SmoothStallsBelow(prev: int, raw: int)
    requires 0 <= prev <= raw
    ensures Smooth(prev, raw) == prev <==> raw - prev <= 3
  {
    var v := prev as real + Alpha * (raw - prev) as real;
    if raw - prev >= 4 {
      assert v >= prev as real + 1.0;
    }
  }

  /** Approaching the sample from above, every step makes progress of at
      least one pixel without overshooting. */
  lemma SmoothDescends(prev: int, raw: int)
    requires 0 <= raw < prev
    ensures raw <= Smooth(prev, raw) < prev
  {
  }

  /** A step from a pixel below `bound` toward a sample at most `bound` stays
      below `bound`: the weighted average falls short of a sample above the
      previous position, and truncation only lowers it. */
  lemma SmoothStaysBelow(prev: int, raw: int, bound: int)
    requires 0 <= prev < bound && 0 <= raw <= bound
    ensures 0 <= Smooth(prev, raw) < bound
  {
    if prev < raw {
      assert prev as real + Alpha * (raw - prev) as real < raw as real;
    }
  }

  /** `n` smoothing steps toward a fixed sample. */
  function Iterate(prev: int, raw: int, n: nat): int
    decreases n
  {
    if n == 0 then prev else Iterate(Smooth(prev, raw), raw, n - 1)
  }

  /** Repeated steps never leave the interval between start and sample. */
  lemma {:induction false} IterateBetween(prev: int, raw: int, n: nat)
    ensures Between(Iterate(prev, raw, n), prev, raw)
    decreases n
  {
    if n > 0 {
      IterateBetween(Smooth(prev, raw), raw, n - 1);
    }
  }

  /** From above the cursor reaches the sample exactly, within as many steps
      as there are pixels between them. */
  lemma {:induction false} ConvergesFromAbove(prev: int, raw: int, n: nat)
    requires 0 <= raw <= prev && n >= prev - raw
    ensures Iterate(prev, raw, n) == raw
    decreases n
  {
    if n > 0 {
      if prev == raw {
        ConvergesFromAbove(prev, raw, n - 1);
      } else {
        SmoothDescends(prev, raw);
        ConvergesFromAbove(Smooth(prev, raw), raw, n - 1);
      }
    }
  }

  /** From below the cursor ends within three pixels of the sample (never
      beyond it) after as many steps as there are pixels between them. */
  lemma {:induction false} ConvergesFromBelow(prev: int, raw: int, n: nat)
    requires 0 <= prev <= raw && n >= raw - prev
    ensures raw - 3 <= Iterate(prev, raw, n) <= raw
    decreases n
  {
    if raw - prev <= 3 {
      IterateBetween(prev, raw, n);
    } else {
      SmoothStallsBelow(prev, raw);
      ConvergesFromBelow(Smooth(prev, raw), raw, n - 1);
    }
  }
}
